=== FILE: README.md ===
# Q-learning agents of the `open_ai_gym` examples, modelled in Dafny

This project models the decision logic of two Q-learning agents and proves
properties about it.

**The discretising CartPole agent** (`q_learning_bins.py`) works in four steps:

- It cuts each of the four observation values into one of ten bins. `to_bin` wraps `np.digitize` over nine `np.linspace` edges.
- It glues the four bin indices together as decimal digits into one state index (`build_state`).
- It keeps a `10 ** 4` by `n_actions` Q-table and moves one cell per update a fraction 0.01 of the way toward the TD target.
- It plays episodes with an epsilon-greedy policy. The TD target gets a −300 penalty when the episode ends before iteration 199.

**The MountainCar agent** (`q_learning_rbf_MountainCar.py`) keeps one incrementally trained regressor per action over a fixed feature transform. Its epsilon-greedy episode loop is bounded by 10000 iterations.

The program's external collaborators become inputs:

- The environment is a script. `start` is what `reset()` returns, and `script[i]` is what the `i`-th `step()` returns.
- The random draws of the policy are inputs: `coins[i]` for `np.random.random()` and `randomActions[i]` for `action_space.sample()`.
- The random initial Q-table is an input function `init`.
- For the MountainCar agent, the feature transform is a function parameter `transform`. A regressor is represented by its `partial_fit` history, and `score(history, features)` stands for what `predict` returns after that history.

Files:

- `wrappers.dfy`: `Option`. `None` is the exception `int("")` raises.
- `decimal.dfy`: `build_state`, the numeral concatenation, and its positional value.
- `binning.dfy`: `to_bin` and exact-arithmetic `linspace`.
- `greedy.dfy`: `np.max` and `np.argmax`.
- `td_target.dfy`: the one-step TD target.
- `episode.dfy`: the scripted environment, the loop lengths, the reward sum and the record of update calls.
- `bins_agent.dfy`: the CartPole agent.
- `rbf_agent.dfy`: the MountainCar agent.

Each episode runner also returns the update calls it made, as `(observation, action, target)` records. The reference functions `EpisodeCalls` state what the calls of the first `k` iterations must be. The model after the first `i` calls is, by construction, the initial model with those calls applied (`ApplyUpdates`).

Two details of the code the model follows:

- `np.linspace(lo, hi, 9)` builds nine edges per dimension, so a bin index lies in 0..9, one decimal digit.
- `np.digitize` with `right=False` counts the edges at or below the value, so a value equal to an edge goes to the bin above it.

## Model

| member | source | states |
|---|---|---|
| Decimal.Str | src/open_ai_gym/q_learning_bins.py:15 | `str(n)` of a non-negative integer is a non-empty string of digits that `int` reads back as `n`; it is one character exactly when `n < 10` |
| Decimal.NumeralValue | src/open_ai_gym/q_learning_bins.py:15 | `int` of a digit string; its partner `NumeralValueConcat` shows that reading a concatenation shifts the left part by the width of the right part, and `Str` is its inverse |
| Decimal.Join | src/open_ai_gym/q_learning_bins.py:15 | `"".join(...)` of the feature numerals is a digit string at least as long as the feature list |
| Decimal.BuildState | src/open_ai_gym/q_learning_bins.py:11-15 | `build_state` fails exactly on the empty list (`int("")`); on single digits it is the positional base-10 value of the list |
| Decimal.JoinOfDigits | src/open_ai_gym/q_learning_bins.py:11-15 | for single digits, reading back the concatenated numerals gives the positional value |
| Decimal.NumeralValueConcat | src/open_ai_gym/q_learning_bins.py:15 | reading a concatenation shifts the left numeral by the width of the right one |
| Decimal.BuildStateSnoc | src/open_ai_gym/q_learning_bins.py:11-15 | for every non-empty feature list, appending a feature `f` of any width shifts the state by the width of `str(f)` and adds `f` |
| Decimal.DecimalValueBound | src/open_ai_gym/q_learning_bins.py:11-15 | `n` digits give a value below `10 ** n` |
| Decimal.DecimalValueInjective | src/open_ai_gym/q_learning_bins.py:11-15 | digit lists of one length have the same value exactly when they are equal |
| Decimal.BuildStateExample | src/open_ai_gym/q_learning_bins.py:11-14 | `build_state([1,2,3,4,5]) == 12345` |
| Decimal.MultiDigitFeatureExample | src/open_ai_gym/q_learning_bins.py:15 | a two-digit feature keeps both digits: `build_state([12, 3]) == 123` |
| Binning.CountAtMost | src/open_ai_gym/q_learning_bins.py:18-19 | reference count of the edges at or below `x`, never more than the number of edges |
| Binning.ToBin | src/open_ai_gym/q_learning_bins.py:18-19 | `to_bin(x, edges)` is at most the number of edges; every edge below the result is `<= x`, and the edge at the result, if any, is `> x` |
| Binning.CountAtSplit | src/open_ai_gym/q_learning_bins.py:18-19 | an index that splits the edges into those `<= x` and those `> x` equals their count |
| Binning.ToBinCountsEdges | src/open_ai_gym/q_learning_bins.py:18-19 | for strictly increasing edges, `to_bin` is the number of edges `<= x` |
| Binning.ToBinMonotone | src/open_ai_gym/q_learning_bins.py:18-19 | `x <= y` implies `to_bin(x) <= to_bin(y)` |
| Binning.ToBinAtEdge | src/open_ai_gym/q_learning_bins.py:18-19 | a value equal to edge `i` lands in bin `i + 1`, the higher one |
| Binning.Linspace | src/open_ai_gym/q_learning_bins.py:24-27 | `linspace(lo, hi, n)` has `n` points from `lo` to `hi`, strictly increasing when `lo < hi` |
| Greedy.Argmax | src/open_ai_gym/q_learning_bins.py:60 | `np.argmax` of a non-empty row is an index of the row |
| Greedy.Max | src/open_ai_gym/q_learning_bins.py:75 | `np.max` of a non-empty row, also used in the MountainCar target; its partner `MaxIsLargest` shows it bounds every entry and is attained |
| Greedy.MaxIsLargest | src/open_ai_gym/q_learning_bins.py:75 | `np.max` bounds every entry and is one of them |
| Greedy.ArgmaxIsFirstMax | src/open_ai_gym/q_learning_bins.py:58-60 | `np.argmax` is the lowest index holding the largest value |
| Greedy.FirstMaxUnique | src/open_ai_gym/q_learning_bins.py:58-60 | any lowest index of the largest value is `np.argmax`'s answer |
| Greedy.ArgmaxAttainsMax | src/open_ai_gym/q_learning_bins.py:55-60 | the entry at `np.argmax` is `np.max` |
| TdTargets.TdTargetBoundsReturns | src/open_ai_gym/q_learning_bins.py:75 | with `gamma >= 0`, no next action's one-step return exceeds the target `reward + gamma * max(next)` |
| TdTargets.TdTargetOfGreedy | src/open_ai_gym/q_learning_rbf_MountainCar.py:83 | the target is the one-step return of the greedy next action |
| TdTargets.TdTarget | src/open_ai_gym/q_learning_bins.py:75 | `G = reward + gamma * np.max(next)`, with the same shape in the MountainCar script; its partners `TdTargetBoundsReturns` and `TdTargetOfGreedy` tie it to the one-step returns of the next actions |
| Episode.FirstDone | src/open_ai_gym/q_learning_bins.py:68 | index of the first terminal step: it is terminal and no earlier step is |
| Episode.ObservationBefore | src/open_ai_gym/q_learning_bins.py:64-71 | the observation at iteration `i`: the reset observation first, then the observation the previous step returned; `EpisodeCallsStep` shows each update is made at it |
| Episode.FirstDoneOnly | src/open_ai_gym/q_learning_bins.py:68-71 | up to the first terminal step, a step is terminal exactly when it is that one |
| Episode.RunLength | src/open_ai_gym/q_learning_rbf_MountainCar.py:75 | `while not done and iterations < 10000` runs at most the limit and at most the script; no step before the last is terminal; stopping below the limit means the last step was terminal |
| Episode.RunLengthStop | src/open_ai_gym/q_learning_rbf_MountainCar.py:75-78 | an iteration is the last exactly when its step is terminal or it reaches the limit |
| Episode.SumRewards | src/open_ai_gym/q_learning_bins.py:72 | `total_reward += reward` summed over the steps taken, in order, with the MountainCar loop the same; `PlayOne` in both agents returns it over exactly the steps the loop consumed |
| QLearningBins.NewFeatureTransformer | src/open_ai_gym/q_learning_bins.py:22-27 | nine strictly increasing edges per dimension with the source's end points |
| QLearningBins.Bins | src/open_ai_gym/q_learning_bins.py:29-36 | four bin indices, each one decimal digit when every dimension has nine edges |
| QLearningBins.Transform | src/open_ai_gym/q_learning_bins.py:29-45 | the state index is `1000*d0 + 100*d1 + 10*d2 + d3` over position, velocity, angle, pole velocity bins, and lies below `10 ** 4` |
| QLearningBins.DecimalValueOfFour | src/open_ai_gym/q_learning_bins.py:11-15 | four digits have the value `1000*d0 + 100*d1 + 10*d2 + d3` |
| QLearningBins.TransformInjective | src/open_ai_gym/q_learning_bins.py:29-36 | two observations share a state index exactly when they fall in the same four bins |
| QLearningBins.NewModel | src/open_ai_gym/q_learning_bins.py:39-45 | a `10 ** obsDims` by `numActions` table holding the initial values, over the transformer's state index |
| QLearningBins.NewModelValid | src/open_ai_gym/q_learning_bins.py:39-45 | for a four-dimensional observation every state index names a row of the table |
| QLearningBins.Predict | src/open_ai_gym/q_learning_bins.py:47-49 | `predict(s)` is a row of one value per action |
| QLearningBins.Update | src/open_ai_gym/q_learning_bins.py:51-53 | `Q[x, a]` becomes `old + 0.01 * (G - old)` and the table stays well-formed |
| QLearningBins.UpdateMovesTowardTarget | src/open_ai_gym/q_learning_bins.py:51-53 | the new value lies between the old value and `G`, strictly inside when they differ, and is unchanged when `G == old` |
| QLearningBins.UpdateFrame | src/open_ai_gym/q_learning_bins.py:51-53 | every other cell keeps its value |
| QLearningBins.PredictAfterUpdate | src/open_ai_gym/q_learning_bins.py:47-53 | after an update, predictions for other state indices are unchanged and for its own index only column `a` moves |
| QLearningBins.SampleAction | src/open_ai_gym/q_learning_bins.py:55-60 | the chosen action is a valid action |
| QLearningBins.SampleActionPolicy | src/open_ai_gym/q_learning_bins.py:55-60 | exploring returns the random action; exploiting returns the lowest action with the largest predicted value |
| QLearningBins.ApplyUpdates | src/open_ai_gym/q_learning_bins.py:51-53 | a sequence of updates keeps the table well-formed |
| QLearningBins.UntouchedCellKeeps | src/open_ai_gym/q_learning_bins.py:51-53 | a cell no update addresses keeps its value through the whole sequence |
| QLearningBins.PenaltyOnlyOnEarlyEnd | src/open_ai_gym/q_learning_bins.py:71-74 | within an episode the shaped reward differs from the raw one exactly on the terminal step when it comes before iteration 199, and never exceeds it |
| QLearningBins.ShapedReward | src/open_ai_gym/q_learning_bins.py:73-74 | the reward used in the target; its partner `PenaltyOnlyOnEarlyEnd` shows it is lowered by 300 exactly on a terminal step before iteration 199 and otherwise equals the raw reward |
| QLearningBins.PlayIteration | src/open_ai_gym/q_learning_bins.py:69-78 | one pass through the loop body moves the observation, the unshaped reward sum, the calls and the table from their values after `k` iterations to their values after `k + 1` |
| QLearningBins.NextCall | src/open_ai_gym/q_learning_bins.py:69-76 | one iteration updates at the observation it acted on, with a valid action |
| QLearningBins.EpisodeCalls | src/open_ai_gym/q_learning_bins.py:63-79 | the calls of the first `k` iterations are `k` calls with valid actions |
| QLearningBins.EpisodeCallsPrefix | src/open_ai_gym/q_learning_bins.py:63-79 | the calls of `i` iterations are a prefix of those of `k >= i` iterations |
| QLearningBins.EpisodeCallsStep | src/open_ai_gym/q_learning_bins.py:69-76 | call `i` acts on the observation before step `i`, with the policy of the table the earlier calls produced, and targets the shaped reward plus `gamma * max(predict(next))`, also on the terminal step |
| QLearningBins.PlayOne | src/open_ai_gym/q_learning_bins.py:63-79 | the loop makes exactly one update per step up to and including the first terminal step; returns the unshaped reward sum of those steps; the final table is the initial one with those updates applied; the calls are those `EpisodeCalls` prescribes |
| QLearningRbf.NewModel | src/open_ai_gym/q_learning_rbf_MountainCar.py:41-49 | one regressor per action, each fitted exactly once with target 0 on its own reset observation; with at least one action the model is valid, every regressor fitted before use |
| QLearningRbf.NewModelPredict | src/open_ai_gym/q_learning_rbf_MountainCar.py:41-55 | a fresh model predicts for action `a` what one fit on reset `a` with target 0 gives |
| QLearningRbf.Predict | src/open_ai_gym/q_learning_rbf_MountainCar.py:51-55 | on a valid model (at least one action, every regressor fitted), one value per action; the two raising cases are excluded by its precondition |
| QLearningRbf.PredictEntry | src/open_ai_gym/q_learning_rbf_MountainCar.py:51-55 | entry `a` of the prediction is the score of action `a`'s regressor on the transformed observation |
| QLearningRbf.Update | src/open_ai_gym/q_learning_rbf_MountainCar.py:57-60 | an update keeps the transform, the score and the number of regressors, and keeps every regressor fitted at least once |
| QLearningRbf.UpdateRegressors | src/open_ai_gym/q_learning_rbf_MountainCar.py:57-60 | only regressor `a` is fitted, once more, on `(transform(s), G)` appended to its history; all others are untouched |
| QLearningRbf.PredictAfterUpdate | src/open_ai_gym/q_learning_rbf_MountainCar.py:51-60 | after an update every other action predicts as before; action `a` predicts with its extended history |
| QLearningRbf.SampleAction | src/open_ai_gym/q_learning_rbf_MountainCar.py:62-66 | the chosen action is a valid action |
| QLearningRbf.SampleActionPolicy | src/open_ai_gym/q_learning_rbf_MountainCar.py:62-66 | exploring returns the random action; exploiting returns the first argmax of `predict(s)` |
| QLearningRbf.ApplyUpdates | src/open_ai_gym/q_learning_rbf_MountainCar.py:57-60 | a sequence of updates keeps the transform, the score and the number of regressors, and keeps every regressor fitted at least once |
| QLearningRbf.ApplyUpdatesHistory | src/open_ai_gym/q_learning_rbf_MountainCar.py:57-60 | each regressor's history is its initial one followed by exactly the samples of the calls for its action, in order |
| QLearningRbf.SamplesForCount | src/open_ai_gym/q_learning_rbf_MountainCar.py:57-60 | regressor `a` gains one sample per call addressed to `a` |
| QLearningRbf.PlayIteration | src/open_ai_gym/q_learning_rbf_MountainCar.py:76-87 | one pass through the loop body moves the observation, the reward sum, the calls and the model from their values after `k` iterations to their values after `k + 1` |
| QLearningRbf.NextCall | src/open_ai_gym/q_learning_rbf_MountainCar.py:76-84 | one iteration updates at the observation it acted on, with a valid action |
| QLearningRbf.EpisodeCalls | src/open_ai_gym/q_learning_rbf_MountainCar.py:69-88 | the calls of the first `k` iterations are `k` calls with valid actions |
| QLearningRbf.EpisodeCallsPrefix | src/open_ai_gym/q_learning_rbf_MountainCar.py:69-88 | the calls of `i` iterations are a prefix of those of `k >= i` iterations |
| QLearningRbf.EpisodeCallsStep | src/open_ai_gym/q_learning_rbf_MountainCar.py:76-84 | call `i` acts on the observation before step `i`, with the policy of the model the earlier calls produced, and targets the raw reward plus `gamma * max(next[0])`, with no shaping and no terminal case |
| QLearningRbf.PlayOne | src/open_ai_gym/q_learning_rbf_MountainCar.py:69-88 | the loop runs until the first terminal step or 10000 iterations, with one update per iteration; returns the plain reward sum; the final model is the initial one with those updates applied; the calls are those `EpisodeCalls` prescribes |

## Left out

- The gym environments, `reset`/`step` dynamics and the `wrappers.Monitor` flag: external. They are replaced by a scripted step sequence and a start observation.
- Randomness: the uniform initial Q-table (`np.random.uniform`), the exploration draw and `action_space.sample()`. They are inputs. Only the range of the random action is assumed.
- The scikit-learn pieces: `StandardScaler`, `RBFSampler`, `FeatureUnion` and `SGDRegressor.partial_fit/predict`. These are foreign numeric code. `transform` and `score` are parameters, and a regressor is its fit history. This assumes `predict` depends only on that history. A regressor never fitted, whose `predict` raises `NotFittedError`, cannot occur: `Valid` demands at least one sample per regressor, `NewModel` seeds each one and updates only add samples.
- `FeatureTransformer.__init__` of the MountainCar agent: it samples 10000 observations to fit the scaler and samplers. It is covered by the `transform` parameter.
- Floating point: `linspace` edges, rewards and Q-values are exact reals. `np.digitize` on NaN is not modelled.
- `build_state` on negative features: the string would contain a `-` sign. `to_bin` never produces one, so features are naturals.
- The `np.stack(...).T` shape and the `assert` on array shapes: the prediction is modelled directly as the one row `next[0]`.
- Plotting (`plot_running_avg`, `plot_cost_to_go`), printing, file output and the `__main__` training drivers with their epsilon schedules. This includes the running `total_rewards` accumulation in the MountainCar driver (src/open_ai_gym/q_learning_rbf_MountainCar.py:137).
- Binning.ToBin: only increasing edges are modelled, the only kind `FeatureTransformer` builds. On decreasing edges `np.digitize` reverses the comparison, returning `i` with `edges[i-1] > x >= edges[i]`, and on unsorted edges it raises `ValueError`. The scan here gives neither answer.
- QLearningBins.PlayOne: it assumes the script contains a terminal step, with a policy draw for every step up to it. The source loop has no iteration bound, so an episode that never ends does not terminate there.
- QLearningRbf.PlayOne: it assumes the script reaches a terminal step or has at least 10000 steps, with a policy draw for every step the bounded loop consumes.
- A model with zero actions: `Valid` excludes it in both agents. `np.max` and `np.argmax` of an empty prediction row raise in the source, and CartPole (2 actions) and MountainCar (3 actions) never produce one.
- QLearningBins.SampleAction, QLearningRbf.SampleAction: the random branch only requires the drawn action to be valid. Its distribution is not modelled.

=== FILE: binning.dfy ===
/**
 Discretisation of one observation dimension: `to_bin`, a wrapper around
 `np.digitize` with its default `right=False`, and the evenly spaced edges of
 `np.linspace` the feature transformer builds them from.
 */
module Binning {

  predicate StrictlyIncreasing(edges: seq<real>) {
    forall i, j :: 0 <= i < j < |edges| ==> edges[i] < edges[j]
  }

  /** Reference definition: how many edges lie at or below `x`. */
  function CountAtMost(x: real, edges: seq<real>): (n: nat)
    ensures n <= |edges|
  {
    if |edges| == 0 then 0
    else CountAtMost(x, edges[..|edges| - 1]) + (if edges[|edges| - 1] <= x then 1 else 0)
  }

  /**
   `to_bin(x, edges)`: the index `b` of the interval `edges[b-1] <= x < edges[b]`,
   with `0` below the first edge and `|edges|` at or above the last one.
   */
  function ToBin(x: real, edges: seq<real>): (b: nat)
    ensures b <= |edges|
    ensures forall i :: 0 <= i < b ==> edges[i] <= x
    ensures b < |edges| ==> x < edges[b]
  {
    if |edges| == 0 || x < edges[0] then 0 else 1 + ToBin(x, edges[1..])
  }

  /** An index that splits the edges into those at or below `x` and those above it is their count. */
  lemma {:induction false} CountAtSplit(x: real, edges: seq<real>, b: nat)
    requires b <= |edges|
    requires forall i :: 0 <= i < b ==> edges[i] <= x
    requires forall i :: b <= i < |edges| ==> x < edges[i]
    ensures CountAtMost(x, edges) == b
  {
    if |edges| > 0 {
      var n := |edges| - 1;
      if b == |edges| {
        CountAtSplit(x, edges[..n], b - 1);
      } else {
        CountAtSplit(x, edges[..n], b);
      }
    }
  }

  /** For strictly increasing edges the bin index is the number of edges at or below `x`. */
  lemma ToBinCountsEdges(x: real, edges: seq<real>)
    requires StrictlyIncreasing(edges)
    ensures ToBin(x, edges) == CountAtMost(x, edges)
  {
    var b := ToBin(x, edges);
    CountAtSplit(x, edges, b);
  }

  /** Larger values never fall in a lower bin. */
  lemma {:induction false} ToBinMonotone(x: real, y: real, edges: seq<real>)
    requires x <= y
    ensures ToBin(x, edges) <= ToBin(y, edges)
  {
    if |edges| > 0 && !(x < edges[0]) {
      ToBinMonotone(x, y, edges[1..]);
    }
  }

  /** A value equal to edge `i` goes to the bin above that edge. */
  lemma ToBinAtEdge(edges: seq<real>, i: nat)
    requires StrictlyIncreasing(edges)
    requires i < |edges|
    ensures ToBin(edges[i], edges) == i + 1
  {
  }

  /** A positive factor keeps strict order. */
  lemma ScaleIncreasing(step: real, x: real, y: real)
    requires step > 0.0 && x < y
    ensures step * x < step * y
  {
    assert step * y - step * x == step * (y - x);
  }

  /**
   `np.linspace(lo, hi, n)` in exact arithmetic: `n` evenly spaced points from
   `lo` to `hi`, both included.
   */
  function Linspace(lo: real, hi: real, n: nat): (edges: seq<real>)
    requires n >= 2
    ensures |edges| == n
    ensures edges[0] == lo && edges[n - 1] == hi
    ensures lo < hi ==> StrictlyIncreasing(edges)
  {
    var step := (hi - lo) / ((n - 1) as real);
    var edges := seq(n, i => lo + step * (i as real));
    assert step * ((n - 1) as real) == hi - lo;
    assert lo < hi ==> StrictlyIncreasing(edges) by {
      if lo < hi {
        forall i, j | 0 <= i < j < n
          ensures edges[i] < edges[j]
        {
          ScaleIncreasing(step, i as real, j as real);
        }
      }
    }
    edges
  }
}

=== FILE: bins_agent.dfy ===
/**
 The discretising CartPole agent: a feature transformer that turns the four
 observation values into one decimal state index, a dense Q-table with one row
 per state index, the epsilon-greedy policy on top of it and the episode loop.
 */
module QLearningBins {
  import opened Decimal
  import opened Binning
  import opened Greedy
  import opened TdTargets
  import opened Episode

  /** Edges per observation dimension: `np.linspace(lo, hi, 9)`. */
  const EdgesPerDimension: nat := 9
  /** Length of a CartPole observation; the table has `10 ** 4` rows. */
  const ObservationDimensions: nat := 4
  /** Learning rate of the tabular update, written `10e-3` in the source. */
  const Alpha: real := 0.01
  /** Subtracted from the TD target's reward when the episode ends early. */
  const EarlyTerminationPenalty: real := 300.0
  /** A terminal step counts as early while the 0-based iteration is below this. */
  const PenaltyCutoff: nat := 199

  datatype Observation = Observation(cartPosition: real, cartVelocity: real, poleAngle: real, poleVelocity: real)

  datatype FeatureTransformer = FeatureTransformer(
    cartPositionBins: seq<real>,
    cartVelocityBins: seq<real>,
    poleVelocityBins: seq<real>,
    poleAngleBins: seq<real>)

  /** Nine edges in every dimension, so that every bin index is one decimal digit. */
  predicate WellFormed(ft: FeatureTransformer) {
    && |ft.cartPositionBins| == EdgesPerDimension
    && |ft.cartVelocityBins| == EdgesPerDimension
    && |ft.poleVelocityBins| == EdgesPerDimension
    && |ft.poleAngleBins| == EdgesPerDimension
  }

  /** The edges of every dimension increase strictly, as `np.digitize` expects. */
  predicate Increasing(ft: FeatureTransformer) {
    && StrictlyIncreasing(ft.cartPositionBins)
    && StrictlyIncreasing(ft.cartVelocityBins)
    && StrictlyIncreasing(ft.poleVelocityBins)
    && StrictlyIncreasing(ft.poleAngleBins)
  }

  /** `FeatureTransformer()`: the fixed edges, in exact arithmetic. */
  function NewFeatureTransformer(): (ft: FeatureTransformer)
    ensures WellFormed(ft) && Increasing(ft)
    ensures ft.cartPositionBins[0] == -2.4 && ft.cartPositionBins[8] == 2.4
    ensures ft.cartVelocityBins[0] == -2.0 && ft.cartVelocityBins[8] == 2.0
    ensures ft.poleVelocityBins[0] == -3.5 && ft.poleVelocityBins[8] == 3.5
    ensures ft.poleAngleBins[0] == -0.4 && ft.poleAngleBins[8] == 0.4
  {
    FeatureTransformer(
      Linspace(-2.4, 2.4, EdgesPerDimension),
      Linspace(-2.0, 2.0, EdgesPerDimension),
      Linspace(-3.5, 3.5, EdgesPerDimension),
      Linspace(-0.4, 0.4, EdgesPerDimension))
  }

  /** The four bin indices, in the order position, velocity, angle, pole velocity. */
  function Bins(ft: FeatureTransformer, obs: Observation): (ds: seq<nat>)
    ensures |ds| == ObservationDimensions
    ensures WellFormed(ft) ==> AllDigits(ds)
  {
    [ ToBin(obs.cartPosition, ft.cartPositionBins),
      ToBin(obs.cartVelocity, ft.cartVelocityBins),
      ToBin(obs.poleAngle, ft.poleAngleBins),
      ToBin(obs.poleVelocity, ft.poleVelocityBins) ]
  }

  /**
   `transform(observation)`: the bin indices concatenated as decimal digits.
   With nine edges per dimension every index is one digit, so the state index is
   `1000*d0 + 100*d1 + 10*d2 + d3` and lies below `10 ** 4`.
   */
  function Transform(ft: FeatureTransformer, obs: Observation): (x: nat)
    ensures WellFormed(ft) ==>
      var ds := Bins(ft, obs);
      && x == DecimalValue(ds)
      && x == 1000 * ds[0] + 100 * ds[1] + 10 * ds[2] + ds[3]
      && x < Pow10(ObservationDimensions)
  {
    var ds := Bins(ft, obs);
    DecimalValueBound(ds);
    DecimalValueOfFour(ds);
    BuildState(ds).value
  }

  /** The positional value of four digits, written out. */
  lemma DecimalValueOfFour(ds: seq<nat>)
    requires |ds| == 4
    ensures DecimalValue(ds) == 1000 * ds[0] + 100 * ds[1] + 10 * ds[2] + ds[3]
  {
    assert ds[..3][..2][..1][..0] == [];
    assert DecimalValue(ds[..3][..2][..1]) == ds[0];
    assert DecimalValue(ds[..3][..2]) == 10 * ds[0] + ds[1];
    assert DecimalValue(ds[..3]) == 100 * ds[0] + 10 * ds[1] + ds[2];
  }

  /** Two observations share a state index exactly when they fall in the same bins. */
  lemma TransformInjective(ft: FeatureTransformer, o1: Observation, o2: Observation)
    requires WellFormed(ft)
    ensures Transform(ft, o1) == Transform(ft, o2) <==> Bins(ft, o1) == Bins(ft, o2)
  {
    DecimalValueInjective(Bins(ft, o1), Bins(ft, o2));
  }

  /**
   The tabular estimator: `transform` is the feature transformer's `transform`,
   `q` has one row per state index and one column per action.
   */
  datatype Model = Model(transform: Observation -> nat, q: seq<seq<real>>, numActions: nat)

  /** The table has `10 ** 4` rows of `numActions` values and every state index names a row. */
  ghost predicate Valid(m: Model) {
    && m.numActions > 0
    && |m.q| == Pow10(ObservationDimensions)
    && (forall x :: 0 <= x < |m.q| ==> |m.q[x]| == m.numActions)
    && (forall s :: m.transform(s) < |m.q|)
  }

  /**
   `Model(env, ft)`: a `10 ** obsDims` by `numActions` table over the state
   indices of `ft`; the random initial values are supplied by `init`.
   */
  function NewModel(ft: FeatureTransformer, obsDims: nat, numActions: nat, init: (nat, nat) -> real): (m: Model)
    ensures |m.q| == Pow10(obsDims) && m.numActions == numActions
    ensures forall s :: m.transform(s) == Transform(ft, s)
    ensures forall x :: 0 <= x < |m.q| ==> |m.q[x]| == numActions
    ensures forall x, a :: 0 <= x < |m.q| && 0 <= a < numActions ==> m.q[x][a] == init(x, a)
  {
    Model(s => Transform(ft, s),
          seq(Pow10(obsDims), x requires 0 <= x => seq(numActions, a requires 0 <= a => init(x, a))),
          numActions)
  }

  /** Sized by the four-dimensional CartPole observation, the table has a row for every state index. */
  lemma NewModelValid(ft: FeatureTransformer, numActions: nat, init: (nat, nat) -> real)
    requires WellFormed(ft) && numActions > 0
    ensures Valid(NewModel(ft, ObservationDimensions, numActions, init))
  {
  }

  /** `predict(s)`: the table row of the state index of `s`. */
  function Predict(m: Model, s: Observation): (row: seq<real>)
    requires Valid(m)
    ensures |row| == m.numActions
  {
    m.q[m.transform(s)]
  }

  /**
   `update(s, a, G)`: moves the one cell `Q[x, a]` a fraction `Alpha` of the way
   toward `G`.
   */
  function Update(m: Model, s: Observation, a: nat, target: real): (m': Model)
    requires Valid(m) && a < m.numActions
    ensures Valid(m') && m'.transform == m.transform && m'.numActions == m.numActions
    ensures
      var x := m.transform(s);
      var v := m.q[x][a];
      m'.q[x][a] == v + Alpha * (target - v)
  {
    var x := m.transform(s);
    var row := m.q[x];
    m.(q := m.q[x := row[a := row[a] + Alpha * (target - row[a])]])
  }

  /**
   The updated cell ends between its old value and the target, strictly inside
   when the two differ, and unchanged when they agree.
   */
  lemma UpdateMovesTowardTarget(m: Model, s: Observation, a: nat, target: real)
    requires Valid(m) && a < m.numActions
    ensures
      var x := m.transform(s);
      var v := m.q[x][a];
      var v' := Update(m, s, a, target).q[x][a];
      && (v <= target ==> v <= v' <= target)
      && (target <= v ==> target <= v' <= v)
      && (v != target ==> v' != v && v' != target)
      && (v == target ==> v' == v)
  {
  }

  /** Every cell other than `Q[x, a]` keeps its value. */
  lemma UpdateFrame(m: Model, s: Observation, a: nat, target: real)
    requires Valid(m) && a < m.numActions
    ensures forall y, b :: 0 <= y < |m.q| && 0 <= b < m.numActions && (y != m.transform(s) || b != a) ==>
      Update(m, s, a, target).q[y][b] == m.q[y][b]
  {
  }

  /** Predictions for other states are untouched by an update; for its own state only column `a` moves. */
  lemma PredictAfterUpdate(m: Model, s: Observation, a: nat, target: real, s': Observation)
    requires Valid(m) && a < m.numActions
    ensures m.transform(s') != m.transform(s) ==> Predict(Update(m, s, a, target), s') == Predict(m, s')
    ensures m.transform(s') == m.transform(s) ==>
      Predict(Update(m, s, a, target), s') == Predict(m, s')[a := Update(m, s, a, target).q[m.transform(s)][a]]
  {
    UpdateFrame(m, s, a, target);
  }

  /**
   `sample_action(s, eps)`: with `coin < eps` (the draw `np.random.random()`) it
   returns `randomAction` (the draw `action_space.sample()`); otherwise the
   greedy action.
   */
  function SampleAction(m: Model, s: Observation, eps: real, coin: real, randomAction: nat): (a: nat)
    requires Valid(m) && randomAction < m.numActions
    ensures a < m.numActions
  {
    if coin < eps then randomAction else Argmax(Predict(m, s))
  }

  /**
   Exploring returns the random action; exploiting returns the lowest-numbered
   action with the largest predicted value.
   */
  lemma SampleActionPolicy(m: Model, s: Observation, eps: real, coin: real, randomAction: nat)
    requires Valid(m) && randomAction < m.numActions
    ensures coin < eps ==> SampleAction(m, s, eps, coin, randomAction) == randomAction
    ensures !(coin < eps) ==> IsFirstMax(Predict(m, s), SampleAction(m, s, eps, coin, randomAction))
  {
    ArgmaxIsFirstMax(Predict(m, s));
  }

  predicate ValidCalls(m: Model, calls: seq<UpdateCall<Observation>>) {
    forall i :: 0 <= i < |calls| ==> calls[i].action < m.numActions
  }

  /** The estimator after the given update calls, applied in order. */
  function ApplyUpdates(m: Model, calls: seq<UpdateCall<Observation>>): (m': Model)
    requires Valid(m) && ValidCalls(m, calls)
    ensures Valid(m') && m'.transform == m.transform && m'.numActions == m.numActions
  {
    if |calls| == 0 then m
    else
      var c := calls[|calls| - 1];
      Update(ApplyUpdates(m, calls[..|calls| - 1]), c.observation, c.action, c.target)
  }

  /** A cell that no update call addresses keeps its value through the whole sequence. */
  lemma {:induction false} UntouchedCellKeeps(m: Model, calls: seq<UpdateCall<Observation>>, x: nat, a: nat)
    requires Valid(m) && ValidCalls(m, calls)
    requires x < |m.q| && a < m.numActions
    requires forall i :: 0 <= i < |calls| ==> m.transform(calls[i].observation) != x || calls[i].action != a
    ensures ApplyUpdates(m, calls).q[x][a] == m.q[x][a]
  {
    if |calls| > 0 {
      UntouchedCellKeeps(m, calls[..|calls| - 1], x, a);
      var c := calls[|calls| - 1];
      UpdateFrame(ApplyUpdates(m, calls[..|calls| - 1]), c.observation, c.action, c.target);
    }
  }

  /** The reward used in the TD target: penalised by 300 on a terminal step before iteration 199. */
  function ShapedReward(step: Step<Observation>, iter: nat): real
  {
    if step.done && iter < PenaltyCutoff then step.reward - EarlyTerminationPenalty else step.reward
  }

  /**
   Within one episode the penalty changes the reward of exactly one step: the
   terminal one, and only when it comes before iteration 199.
   */
  lemma PenaltyOnlyOnEarlyEnd(script: seq<Step<Observation>>, i: nat)
    requires HasDone(script) && i <= FirstDone(script)
    ensures ShapedReward(script[i], i) != script[i].reward <==> i == FirstDone(script) && i < PenaltyCutoff
    ensures ShapedReward(script[i], i) <= script[i].reward
  {
    FirstDoneOnly(script, i);
  }

  predicate ActionsInRange(m: Model, randomActions: seq<nat>) {
    forall i :: 0 <= i < |randomActions| ==> randomActions[i] < m.numActions
  }

  /**
   One iteration of `play_one` with estimator `model` acting on `observation`:
   pick the action, take `step`, and target the shaped reward of iteration
   `iter` plus the discounted best value the estimator predicts after the step.
   */
  function NextCall(model: Model, observation: Observation, step: Step<Observation>, iter: nat,
                    eps: real, gamma: real, coin: real, randomAction: nat): (c: UpdateCall<Observation>)
    requires Valid(model) && randomAction < model.numActions
    ensures c.observation == observation && c.action < model.numActions
  {
    var action := SampleAction(model, observation, eps, coin, randomAction);
    UpdateCall(observation, action, TdTarget(ShapedReward(step, iter), gamma, Predict(model, step.observation)))
  }

  /**
   The update calls of the first `k` iterations of `play_one`: iteration `i`
   acts on the observation before step `i` with the estimator the earlier calls
   produced.
   */
  function EpisodeCalls(m: Model, start: Observation, script: seq<Step<Observation>>, eps: real, gamma: real,
                        coins: seq<real>, randomActions: seq<nat>, k: nat): (calls: seq<UpdateCall<Observation>>)
    requires Valid(m) && ActionsInRange(m, randomActions)
    requires k <= |script| && k <= |coins| && k <= |randomActions|
    ensures |calls| == k && ValidCalls(m, calls)
  {
    if k == 0 then []
    else
      var calls := EpisodeCalls(m, start, script, eps, gamma, coins, randomActions, k - 1);
      calls + [NextCall(ApplyUpdates(m, calls), ObservationBefore(start, script, k - 1), script[k - 1], k - 1,
                        eps, gamma, coins[k - 1], randomActions[k - 1])]
  }

  /** The calls of the first `i` iterations are a prefix of those of the first `k`. */
  lemma {:induction false} EpisodeCallsPrefix(m: Model, start: Observation, script: seq<Step<Observation>>, eps: real, gamma: real,
                                              coins: seq<real>, randomActions: seq<nat>, i: nat, k: nat)
    requires Valid(m) && ActionsInRange(m, randomActions)
    requires i <= k <= |script| && k <= |coins| && k <= |randomActions|
    ensures EpisodeCalls(m, start, script, eps, gamma, coins, randomActions, k)[..i]
         == EpisodeCalls(m, start, script, eps, gamma, coins, randomActions, i)
  {
    var calls' := EpisodeCalls(m, start, script, eps, gamma, coins, randomActions, k);
    if i == k {
      assert calls'[..i] == calls';
    } else {
      EpisodeCallsPrefix(m, start, script, eps, gamma, coins, randomActions, i, k - 1);
      var calls := EpisodeCalls(m, start, script, eps, gamma, coins, randomActions, k - 1);
      assert calls'[..k - 1] == calls;
      TakeOfTake(calls', i, k - 1);
    }
  }

  /**
   Every call of the first `k` iterations acts on the observation before its
   step, picks its action with the policy of the estimator the calls before it
   produced, and targets the shaped reward plus that estimator's discounted
   best next value.
   */
  lemma EpisodeCallsStep(m: Model, start: Observation, script: seq<Step<Observation>>, eps: real, gamma: real,
                         coins: seq<real>, randomActions: seq<nat>, k: nat)
    requires Valid(m) && ActionsInRange(m, randomActions)
    requires k <= |script| && k <= |coins| && k <= |randomActions|
    ensures var calls := EpisodeCalls(m, start, script, eps, gamma, coins, randomActions, k);
      && (forall i :: 0 <= i < k ==> ValidCalls(m, calls[..i]))
      && (forall i :: 0 <= i < k ==> calls[i].observation == ObservationBefore(start, script, i))
      && (forall i :: 0 <= i < k ==>
            calls[i].action == SampleAction(ApplyUpdates(m, calls[..i]), calls[i].observation, eps, coins[i], randomActions[i]))
      && (forall i :: 0 <= i < k ==>
            calls[i].target == TdTarget(ShapedReward(script[i], i), gamma, Predict(ApplyUpdates(m, calls[..i]), script[i].observation)))
  {
    var calls := EpisodeCalls(m, start, script, eps, gamma, coins, randomActions, k);
    forall i | 0 <= i < k
      ensures ValidCalls(m, calls[..i])
      ensures calls[i].observation == ObservationBefore(start, script, i)
      ensures calls[i].action == SampleAction(ApplyUpdates(m, calls[..i]), calls[i].observation, eps, coins[i], randomActions[i])
      ensures calls[i].target == TdTarget(ShapedReward(script[i], i), gamma, Predict(ApplyUpdates(m, calls[..i]), script[i].observation))
    {
      EpisodeCallsPrefix(m, start, script, eps, gamma, coins, randomActions, i, k);
      EpisodeCallsPrefix(m, start, script, eps, gamma, coins, randomActions, i + 1, k);
      var calls' := EpisodeCalls(m, start, script, eps, gamma, coins, randomActions, i + 1);
      assert calls'[..i] == calls[..i];
      assert calls[i] == calls'[i];
    }
  }

  /**
   One pass through the body of the `play_one` loop at iteration `k`: act,
   step, shape the reward, update the model and add the unshaped reward,
   keeping the episode's state in step with the first `k + 1` iterations.
   */
  method PlayIteration(m: Model, start: Observation, script: seq<Step<Observation>>, eps: real, gamma: real,
                       coins: seq<real>, randomActions: seq<nat>, k: nat,
                       model: Model, observation: Observation, totalReward: real, calls: seq<UpdateCall<Observation>>)
    returns (model': Model, observation': Observation, totalReward': real, calls': seq<UpdateCall<Observation>>)
    requires Valid(m) && ActionsInRange(m, randomActions)
    requires k < |script| && k < |coins| && k < |randomActions|
    requires observation == ObservationBefore(start, script, k) && totalReward == SumRewards(script[..k])
    requires calls == EpisodeCalls(m, start, script, eps, gamma, coins, randomActions, k) && model == ApplyUpdates(m, calls)
    ensures observation' == ObservationBefore(start, script, k + 1) && observation' == script[k].observation
    ensures totalReward' == SumRewards(script[..k + 1])
    ensures calls' == EpisodeCalls(m, start, script, eps, gamma, coins, randomActions, k + 1)
    ensures model' == ApplyUpdates(m, calls')
  {
    var step := script[k];
    var call := NextCall(model, observation, step, k, eps, gamma, coins[k], randomActions[k]);
    observation' := step.observation;
    totalReward' := totalReward + step.reward;
    model' := Update(model, call.observation, call.action, call.target);
    calls' := calls + [call];
    assert calls'[..k] == calls;
    assert script[..k + 1][..k] == script[..k];
  }

  /**
   `play_one(model, eps, gamma)` against a scripted environment: `start` is what
   `reset()` returns and `script[i]` what the `i`-th `step` returns. The draws of
   the policy are `coins[i]` and `randomActions[i]`. Returns the plain sum of the
   rewards, the final estimator and the update calls in the order they were made.
   */
  method PlayOne(m: Model, start: Observation, script: seq<Step<Observation>>, eps: real, gamma: real,
                 coins: seq<real>, randomActions: seq<nat>)
    returns (totalReward: real, m': Model, calls: seq<UpdateCall<Observation>>)
    requires Valid(m) && ActionsInRange(m, randomActions)
    requires HasDone(script)
    requires |coins| > FirstDone(script) && |randomActions| > FirstDone(script)
    ensures |calls| == FirstDone(script) + 1
    ensures totalReward == SumRewards(script[..|calls|])
    ensures calls == EpisodeCalls(m, start, script, eps, gamma, coins, randomActions, |calls|)
    ensures ValidCalls(m, calls) && m' == ApplyUpdates(m, calls)
  {
    var observation := start;
    var done := false;
    totalReward := 0.0;
    m' := m;
    calls := [];
    var iter: nat := 0;
    ghost var last := FirstDone(script);
    while !done
      invariant if done then iter == last + 1 else iter <= last
      invariant observation == ObservationBefore(start, script, iter)
      invariant totalReward == SumRewards(script[..iter])
      invariant calls == EpisodeCalls(m, start, script, eps, gamma, coins, randomActions, iter)
      invariant m' == ApplyUpdates(m, calls)
      decreases last + 1 - iter
    {
      FirstDoneOnly(script, iter);
      done := script[iter].done;
      m', observation, totalReward, calls :=
        PlayIteration(m, start, script, eps, gamma, coins, randomActions, iter, m', observation, totalReward, calls);
      iter := iter + 1;
    }
  }
}

=== FILE: decimal.dfy ===
/**
 Decimal numerals, as used by `build_state` of the discretising agent: every
 feature is printed with `str`, the numerals are concatenated and the result is
 read back with `int`.
 */
module Decimal {
  import opened Wrappers

  function Pow10(n: nat): (p: nat)
    ensures p >= 1
  {
    if n == 0 then 1 else 10 * Pow10(n - 1)
  }

  /** Every entry is a single decimal digit. */
  predicate AllDigits(ds: seq<nat>) {
    forall i :: 0 <= i < |ds| ==> ds[i] < 10
  }

  /** Positional base-10 value of a digit sequence, most significant digit first. */
  function DecimalValue(ds: seq<nat>): nat
  {
    if |ds| == 0 then 0 else DecimalValue(ds[..|ds| - 1]) * 10 + ds[|ds| - 1]
  }

  predicate IsNumeral(s: string) {
    forall i :: 0 <= i < |s| ==> '0' <= s[i] <= '9'
  }

  function DigitChar(d: nat): (c: char)
    requires d < 10
    ensures '0' <= c <= '9'
  {
    ('0' as int + d) as char
  }

  /** The value `int` gives a string of ASCII digits (zero for the empty string). */
  function NumeralValue(s: string): nat
    requires IsNumeral(s)
  {
    if |s| == 0 then 0
    else NumeralValue(s[..|s| - 1]) * 10 + (s[|s| - 1] as int - '0' as int)
  }

  /** Python's `str(n)` for a non-negative integer: its shortest decimal numeral. */
  function Str(n: nat): (s: string)
    ensures |s| > 0 && IsNumeral(s)
    ensures NumeralValue(s) == n
    ensures n < 10 <==> |s| == 1
  {
    if n < 10 then [DigitChar(n)]
    else
      var prefix := Str(n / 10);
      var s := prefix + [DigitChar(n % 10)];
      assert s[..|s| - 1] == prefix;
      s
  }

  /** `"".join(str(f) for f in features)`, built from the last feature backwards. */
  function Join(features: seq<nat>): (s: string)
    ensures IsNumeral(s)
    ensures |s| >= |features|
  {
    if |features| == 0 then ""
    else Join(features[..|features| - 1]) + Str(features[|features| - 1])
  }

  /**
   `build_state`: the features' numerals concatenated and read as one integer.
   An empty feature list gives `int("")`, which raises; that is `None` here.
   */
  function BuildState(features: seq<nat>): (r: Option<nat>)
    ensures r.None? <==> |features| == 0
    ensures r.Some? && AllDigits(features) ==> r.value == DecimalValue(features)
  {
    var s := Join(features);
    if |s| == 0 then None
    else
      JoinOfDigits(features);
      Some(NumeralValue(s))
  }

  /** For single digits the concatenated numeral reads back as the positional value. */
  lemma {:induction false} JoinOfDigits(ds: seq<nat>)
    ensures AllDigits(ds) ==> NumeralValue(Join(ds)) == DecimalValue(ds)
  {
    if |ds| > 0 && AllDigits(ds) {
      var prefix := ds[..|ds| - 1];
      JoinOfDigits(prefix);
      var s := Join(ds);
      assert Str(ds[|ds| - 1]) == [DigitChar(ds[|ds| - 1])];
      assert s[..|s| - 1] == Join(prefix);
    }
  }

  /** Reading a concatenation: the left numeral is shifted by the width of the right one. */
  lemma {:induction false} NumeralValueConcat(a: string, b: string)
    requires IsNumeral(a) && IsNumeral(b)
    ensures NumeralValue(a + b) == NumeralValue(a) * Pow10(|b|) + NumeralValue(b)
  {
    if |b| > 0 {
      var ab := a + b;
      var b' := b[..|b| - 1];
      var d := b[|b| - 1] as int - '0' as int;
      assert ab[..|ab| - 1] == a + b';
      NumeralValueConcat(a, b');
      assert NumeralValue(ab) == NumeralValue(a + b') * 10 + d;
      assert NumeralValue(b) == NumeralValue(b') * 10 + d;
      Regroup(NumeralValue(a), Pow10(|b'|), NumeralValue(b'), d);
    } else {
      assert a + b == a;
    }
  }

  /** Appending one digit to `va * p + vb` is appending it to `vb` with the shift widened by ten. */
  lemma Regroup(va: int, p: int, vb: int, d: int)
    ensures (va * p + vb) * 10 + d == va * (p * 10) + (vb * 10 + d)
  {
  }

  /** `n` digits have a value below `10^n`, so the state index fits a table of `10^n` rows. */
  lemma {:induction false} DecimalValueBound(ds: seq<nat>)
    ensures AllDigits(ds) ==> DecimalValue(ds) < Pow10(|ds|)
  {
    if |ds| > 0 && AllDigits(ds) {
      DecimalValueBound(ds[..|ds| - 1]);
    }
  }

  /** Two digit sequences of the same length with the same value are the same sequence. */
  lemma {:induction false} DecimalValueInjective(a: seq<nat>, b: seq<nat>)
    requires |a| == |b| && AllDigits(a) && AllDigits(b)
    ensures DecimalValue(a) == DecimalValue(b) <==> a == b
  {
    if |a| > 0 && DecimalValue(a) == DecimalValue(b) {
      var n := |a| - 1;
      var va := DecimalValue(a[..n]);
      var vb := DecimalValue(b[..n]);
      assert va * 10 + a[n] == vb * 10 + b[n];
      assert a[n] == b[n] && va == vb;
      DecimalValueInjective(a[..n], b[..n]);
      assert a == a[..n] + [a[n]];
      assert b == b[..n] + [b[n]];
    }
  }

  /** The example in the source's own comment. */
  lemma BuildStateExample()
    ensures BuildState([1, 2, 3, 4, 5]) == Some(12345)
  {
    var ds: seq<nat> := [1, 2, 3, 4, 5];
    assert AllDigits(ds);
    assert ds[..4] == [1, 2, 3, 4];
    assert ds[..4][..3] == [1, 2, 3];
    assert ds[..4][..3][..2] == [1, 2];
    assert ds[..4][..3][..2][..1] == [1];
    assert [1][..0] == [];
    assert DecimalValue([1]) == 1;
    assert DecimalValue([1, 2]) == 12;
    assert DecimalValue([1, 2, 3]) == 123;
    assert DecimalValue([1, 2, 3, 4]) == 1234;
    assert DecimalValue(ds) == 12345;
  }

  /**
   Appending a feature to a non-empty list: the state read so far is shifted
   by the width of the new feature's numeral, which is then added.
   */
  lemma BuildStateSnoc(fs: seq<nat>, f: nat)
    requires |fs| > 0
    ensures BuildState(fs + [f]) == Some(BuildState(fs).value * Pow10(|Str(f)|) + f)
  {
    assert (fs + [f])[..|fs|] == fs;
    assert Join(fs + [f]) == Join(fs) + Str(f);
    NumeralValueConcat(Join(fs), Str(f));
  }

  /** A feature of two digits is printed with both: `build_state([12, 3])` is 123. */
  lemma MultiDigitFeatureExample()
    ensures BuildState([12, 3]) == Some(123)
  {
    BuildStateSnoc([12], 3);
    assert [12] + [3] == [12, 3];
  }
}

=== FILE: episode.dfy ===
/**
 The scripted environment both episode runners are driven by, and the record of
 the estimator updates an episode performs.
 */
module Episode {

  /** One result of `env.step(action)`: the next observation, the reward and the terminal flag. */
  datatype Step<O> = Step(observation: O, reward: real, done: bool)

  /** One call `model.update(prev_observation, action, G)` made by an episode runner. */
  datatype UpdateCall<O> = UpdateCall(observation: O, action: nat, target: real)

  predicate HasDone<O>(script: seq<Step<O>>) {
    exists i :: 0 <= i < |script| && script[i].done
  }

  /** Index of the first terminal step. */
  function FirstDone<O>(script: seq<Step<O>>): (k: nat)
    requires HasDone(script)
    ensures k < |script| && script[k].done
    ensures forall i :: 0 <= i < k ==> !script[i].done
  {
    if script[0].done then 0
    else
      var i :| 0 <= i < |script| && script[i].done;
      assert script[1..][i - 1].done;
      1 + FirstDone(script[1..])
  }

  /** A prefix of a prefix is a prefix. */
  lemma TakeOfTake<T>(s: seq<T>, i: nat, j: nat)
    requires i <= j <= |s|
    ensures s[..j][..i] == s[..i]
  {
  }

  /** Up to the first terminal step, a step is terminal exactly when it is that one. */
  lemma FirstDoneOnly<O>(script: seq<Step<O>>, i: nat)
    requires HasDone(script) && i <= FirstDone(script)
    ensures script[i].done <==> i == FirstDone(script)
  {
  }

  /**
   Number of iterations of `while not done and iterations < limit`: up to and
   including the first terminal step, but never more than `limit`.
   */
  function RunLength<O>(script: seq<Step<O>>, limit: nat): (k: nat)
    requires HasDone(script) || |script| >= limit
    ensures k <= limit && k <= |script|
    ensures forall i :: 0 <= i < k - 1 ==> !script[i].done
    ensures k < limit ==> k > 0 && script[k - 1].done
  {
    if HasDone(script) && FirstDone(script) < limit then FirstDone(script) + 1 else limit
  }

  /**
   Before the loop stops, iteration `i` is its last exactly when its step is
   terminal or it reaches the limit.
   */
  lemma RunLengthStop<O>(script: seq<Step<O>>, limit: nat, i: nat)
    requires HasDone(script) || |script| >= limit
    requires i < RunLength(script, limit)
    ensures script[i].done || i + 1 == limit <==> i + 1 == RunLength(script, limit)
  {
  }

  /** Plain sum of the rewards of the given steps, in order. */
  function SumRewards<O>(steps: seq<Step<O>>): real
  {
    if |steps| == 0 then 0.0 else SumRewards(steps[..|steps| - 1]) + steps[|steps| - 1].reward
  }

  /** The observation the agent acts on at iteration `i`: the reset one, then each step's result. */
  function ObservationBefore<O>(start: O, script: seq<Step<O>>, i: nat): O
    requires i <= |script|
  {
    if i == 0 then start else script[i - 1].observation
  }
}

=== FILE: greedy.dfy ===
/** `np.max` and `np.argmax` over one row of action values. */
module Greedy {

  /** `k` is the lowest index holding the largest value of `v`. */
  predicate IsFirstMax(v: seq<real>, k: nat) {
    && k < |v|
    && (forall i :: 0 <= i < |v| ==> v[i] <= v[k])
    && (forall i :: 0 <= i < k ==> v[i] < v[k])
  }

  /** `np.max(v)`; an empty row raises in the source and is excluded. */
  function Max(v: seq<real>): real
    requires |v| > 0
  {
    if |v| == 1 then v[0]
    else
      var m := Max(v[..|v| - 1]);
      if m < v[|v| - 1] then v[|v| - 1] else m
  }

  /** `np.argmax(v)`: ties go to the lowest index. */
  function Argmax(v: seq<real>): (k: nat)
    requires |v| > 0
    ensures k < |v|
  {
    if |v| == 1 then 0
    else
      var k := Argmax(v[..|v| - 1]);
      if v[k] < v[|v| - 1] then |v| - 1 else k
  }

  /** `Max` bounds every entry and is one of them. */
  lemma {:induction false} MaxIsLargest(v: seq<real>)
    requires |v| > 0
    ensures forall i :: 0 <= i < |v| ==> v[i] <= Max(v)
    ensures exists i :: 0 <= i < |v| && v[i] == Max(v)
  {
    if |v| > 1 {
      var init := v[..|v| - 1];
      MaxIsLargest(init);
      assert forall i :: 0 <= i < |init| ==> init[i] == v[i];
      var j :| 0 <= j < |init| && init[j] == Max(init);
      if Max(init) < v[|v| - 1] {
        assert v[|v| - 1] == Max(v);
      } else {
        assert v[j] == Max(v);
      }
    } else {
      assert v[0] == Max(v);
    }
  }

  /** `Argmax` picks the lowest index holding the largest value. */
  lemma {:induction false} ArgmaxIsFirstMax(v: seq<real>)
    requires |v| > 0
    ensures IsFirstMax(v, Argmax(v))
  {
    if |v| > 1 {
      var init := v[..|v| - 1];
      ArgmaxIsFirstMax(init);
      assert forall i :: 0 <= i < |init| ==> init[i] == v[i];
    }
  }

  /** The first maximum is unique, so `Argmax` is the only index with that property. */
  lemma FirstMaxUnique(v: seq<real>, k: nat)
    requires IsFirstMax(v, k)
    ensures k == Argmax(v)
  {
    ArgmaxIsFirstMax(v);
  }

  /** The greedy action's value is the bootstrap value `np.max` gives. */
  lemma ArgmaxAttainsMax(v: seq<real>)
    requires |v| > 0
    ensures v[Argmax(v)] == Max(v)
  {
    ArgmaxIsFirstMax(v);
    MaxIsLargest(v);
  }

  /** A non-negative scale keeps an upper bound of the entries an upper bound. */
  lemma ScaledBound(r: real, c: real, v: seq<real>, bound: real)
    requires c >= 0.0 && forall i :: 0 <= i < |v| ==> v[i] <= bound
    ensures forall i :: 0 <= i < |v| ==> r + c * v[i] <= r + c * bound
  {
    forall i | 0 <= i < |v|
      ensures r + c * v[i] <= r + c * bound
    {
      assert c * bound - c * v[i] == c * (bound - v[i]);
    }
  }
}

=== FILE: rbf_agent.dfy ===
/**
 The MountainCar agent: one incrementally trained linear regressor per action
 over a fixed feature transform, the epsilon-greedy policy on top of them and
 the episode loop. The feature transform (scaler and RBF samplers) and the
 regressor's arithmetic are parameters: a regressor is its `partial_fit`
 history, and `score(history, features)` is what `predict` returns after that
 history.
 */
module QLearningRbf {
  import opened Greedy
  import opened TdTargets
  import opened Episode

  /** The episode loop stops after this many iterations even without a terminal step. */
  const MaxIterations: nat := 10000

  datatype Observation = Observation(position: real, velocity: real)

  /** One `partial_fit(X, [y])` call: the transformed observation and its target. */
  datatype Sample = Sample(features: seq<real>, target: real)

  /** An `SGDRegressor`, known by the samples it was fitted with, in order. */
  datatype Regressor = Regressor(fitted: seq<Sample>)

  /**
   `transform` is the feature transformer's `transform` of one observation,
   `score` the prediction of a regressor with the given history, and
   `regressors[a]` the regressor of action `a`.
   */
  datatype Model = Model(
    transform: Observation -> seq<real>,
    score: (seq<Sample>, seq<real>) -> real,
    regressors: seq<Regressor>)

  /**
   There is at least one action, so `np.max` and `np.argmax` of a prediction
   are defined, and every regressor has been fitted at least once, so its
   `predict` does not raise.
   */
  predicate Valid(m: Model) {
    && |m.regressors| > 0
    && forall a :: 0 <= a < |m.regressors| ==> |m.regressors[a].fitted| > 0
  }

  /**
   `Model(env, ft, learning_rate)`: one regressor per action, each fitted once
   with label 0 on the observation a fresh `env.reset()` returned; `resets[a]`
   is the observation the reset for action `a` gave.
   */
  function NewModel(transform: Observation -> seq<real>, score: (seq<Sample>, seq<real>) -> real,
                    resets: seq<Observation>): (m: Model)
    ensures |m.regressors| == |resets| && m.transform == transform && m.score == score
    ensures forall a :: 0 <= a < |resets| ==> |m.regressors[a].fitted| == 1
    ensures forall a :: 0 <= a < |resets| ==> m.regressors[a].fitted[0] == Sample(transform(resets[a]), 0.0)
    ensures |resets| > 0 ==> Valid(m)
  {
    Model(transform, score, seq(|resets|, a requires 0 <= a < |resets| => Regressor([Sample(transform(resets[a]), 0.0)])))
  }

  /**
   `predict(s)`: every action's regressor scores the features of `s`, in action
   order. Only a valid model predicts: with no regressors `np.stack` raises, and
   an unfitted regressor raises in its own `predict`.
   */
  function Predict(m: Model, s: Observation): (row: seq<real>)
    requires Valid(m)
    ensures |row| == |m.regressors|
  {
    seq(|m.regressors|, a requires 0 <= a < |m.regressors| => m.score(m.regressors[a].fitted, m.transform(s)))
  }

  /** Entry `a` of the prediction is the score of regressor `a` on the features of `s`. */
  lemma PredictEntry(m: Model, s: Observation, a: nat)
    requires Valid(m) && a < |m.regressors|
    ensures Predict(m, s)[a] == m.score(m.regressors[a].fitted, m.transform(s))
  {
  }

  /** A fresh model predicts for every action what one fit on its own reset observation gives. */
  lemma NewModelPredict(transform: Observation -> seq<real>, score: (seq<Sample>, seq<real>) -> real,
                        resets: seq<Observation>, s: Observation, a: nat)
    requires a < |resets|
    ensures Predict(NewModel(transform, score, resets), s)[a] == score([Sample(transform(resets[a]), 0.0)], transform(s))
  {
    var m := NewModel(transform, score, resets);
    assert m.regressors[a].fitted == [Sample(transform(resets[a]), 0.0)];
  }

  /** `update(s, a, G)`: only the regressor of `a` is fitted, once more, on `(s, G)`. */
  function Update(m: Model, s: Observation, a: nat, target: real): (m': Model)
    requires a < |m.regressors|
    ensures m'.transform == m.transform && m'.score == m.score && |m'.regressors| == |m.regressors|
    ensures Valid(m) ==> Valid(m')
  {
    var r := m.regressors[a];
    m.(regressors := m.regressors[a := Regressor(r.fitted + [Sample(m.transform(s), target)])])
  }

  /** The regressor of `a` gains the sample `(transform(s), G)` at the end of its history; every other is untouched. */
  lemma UpdateRegressors(m: Model, s: Observation, a: nat, target: real)
    requires a < |m.regressors|
    ensures Update(m, s, a, target).regressors[a].fitted == m.regressors[a].fitted + [Sample(m.transform(s), target)]
    ensures forall b :: 0 <= b < |m.regressors| && b != a ==> Update(m, s, a, target).regressors[b] == m.regressors[b]
  {
  }

  /** After an update, every other action predicts as before. */
  lemma PredictAfterUpdate(m: Model, s: Observation, a: nat, target: real, s': Observation)
    requires Valid(m) && a < |m.regressors|
    ensures forall b :: 0 <= b < |m.regressors| && b != a ==> Predict(Update(m, s, a, target), s')[b] == Predict(m, s')[b]
    ensures Predict(Update(m, s, a, target), s')[a]
         == m.score(m.regressors[a].fitted + [Sample(m.transform(s), target)], m.transform(s'))
  {
    UpdateRegressors(m, s, a, target);
  }

  /**
   `sample_action(s, eps)`: with `coin < eps` (the draw `np.random.random()`) it
   returns `randomAction` (the draw `action_space.sample()`); otherwise the
   greedy action.
   */
  function SampleAction(m: Model, s: Observation, eps: real, coin: real, randomAction: nat): (a: nat)
    requires Valid(m) && randomAction < |m.regressors|
    ensures a < |m.regressors|
  {
    if coin < eps then randomAction else Argmax(Predict(m, s))
  }

  /**
   Exploring returns the random action; exploiting returns the lowest-numbered
   action whose regressor scores highest.
   */
  lemma SampleActionPolicy(m: Model, s: Observation, eps: real, coin: real, randomAction: nat)
    requires Valid(m) && randomAction < |m.regressors|
    ensures coin < eps ==> SampleAction(m, s, eps, coin, randomAction) == randomAction
    ensures !(coin < eps) ==> IsFirstMax(Predict(m, s), SampleAction(m, s, eps, coin, randomAction))
  {
    ArgmaxIsFirstMax(Predict(m, s));
  }

  predicate ValidCalls(m: Model, calls: seq<UpdateCall<Observation>>) {
    forall i :: 0 <= i < |calls| ==> calls[i].action < |m.regressors|
  }

  /** The model after the given update calls, applied in order. */
  function ApplyUpdates(m: Model, calls: seq<UpdateCall<Observation>>): (m': Model)
    requires ValidCalls(m, calls)
    ensures m'.transform == m.transform && m'.score == m.score && |m'.regressors| == |m.regressors|
    ensures Valid(m) ==> Valid(m')
  {
    if |calls| == 0 then m
    else
      var c := calls[|calls| - 1];
      Update(ApplyUpdates(m, calls[..|calls| - 1]), c.observation, c.action, c.target)
  }

  /** The samples the calls addressed to action `a` fit, in call order. */
  function SamplesFor(transform: Observation -> seq<real>, calls: seq<UpdateCall<Observation>>, a: nat): seq<Sample>
  {
    if |calls| == 0 then []
    else
      var c := calls[|calls| - 1];
      SamplesFor(transform, calls[..|calls| - 1], a)
        + (if c.action == a then [Sample(transform(c.observation), c.target)] else [])
  }

  /**
   After a sequence of updates, the history of each action's regressor is its
   initial history followed by exactly the samples of the calls for that action.
   */
  lemma {:induction false} ApplyUpdatesHistory(m: Model, calls: seq<UpdateCall<Observation>>, a: nat)
    requires ValidCalls(m, calls) && a < |m.regressors|
    ensures ApplyUpdates(m, calls).regressors[a].fitted == m.regressors[a].fitted + SamplesFor(m.transform, calls, a)
  {
    if |calls| > 0 {
      var init := calls[..|calls| - 1];
      var c := calls[|calls| - 1];
      ApplyUpdatesHistory(m, init, a);
      UpdateRegressors(ApplyUpdates(m, init), c.observation, c.action, c.target);
    }
  }

  /** The regressor of `a` gains one sample per call addressed to `a`. */
  lemma {:induction false} SamplesForCount(transform: Observation -> seq<real>, calls: seq<UpdateCall<Observation>>, a: nat)
    ensures |SamplesFor(transform, calls, a)| == |set i | 0 <= i < |calls| && calls[i].action == a|
  {
    var idx := set i | 0 <= i < |calls| && calls[i].action == a;
    if |calls| > 0 {
      var n := |calls| - 1;
      var init := calls[..n];
      var idx' := set i | 0 <= i < n && init[i].action == a;
      SamplesForCount(transform, init, a);
      if calls[n].action == a {
        assert idx == idx' + {n};
      } else {
        assert idx == idx';
      }
    } else {
      assert idx == {};
    }
  }

  predicate ActionsInRange(m: Model, randomActions: seq<nat>) {
    forall i :: 0 <= i < |randomActions| ==> randomActions[i] < |m.regressors|
  }

  /**
   One iteration of `play_one` with `model` acting on `observation`: pick the
   action, take `step`, and target the step's reward plus the discounted best
   score the model gives the observation after it.
   */
  function NextCall(model: Model, observation: Observation, step: Step<Observation>,
                    eps: real, gamma: real, coin: real, randomAction: nat): (c: UpdateCall<Observation>)
    requires Valid(model) && randomAction < |model.regressors|
    ensures c.observation == observation && c.action < |model.regressors|
  {
    var action := SampleAction(model, observation, eps, coin, randomAction);
    UpdateCall(observation, action, TdTarget(step.reward, gamma, Predict(model, step.observation)))
  }

  /**
   The update calls of the first `k` iterations of `play_one`: iteration `i`
   acts on the observation before step `i` with the model the earlier calls
   produced.
   */
  function EpisodeCalls(m: Model, start: Observation, script: seq<Step<Observation>>, eps: real, gamma: real,
                        coins: seq<real>, randomActions: seq<nat>, k: nat): (calls: seq<UpdateCall<Observation>>)
    requires Valid(m) && ActionsInRange(m, randomActions)
    requires k <= |script| && k <= |coins| && k <= |randomActions|
    ensures |calls| == k && ValidCalls(m, calls)
  {
    if k == 0 then []
    else
      var calls := EpisodeCalls(m, start, script, eps, gamma, coins, randomActions, k - 1);
      calls + [NextCall(ApplyUpdates(m, calls), ObservationBefore(start, script, k - 1), script[k - 1],
                        eps, gamma, coins[k - 1], randomActions[k - 1])]
  }

  /** The calls of the first `i` iterations are a prefix of those of the first `k`. */
  lemma {:induction false} EpisodeCallsPrefix(m: Model, start: Observation, script: seq<Step<Observation>>, eps: real, gamma: real,
                                              coins: seq<real>, randomActions: seq<nat>, i: nat, k: nat)
    requires Valid(m) && ActionsInRange(m, randomActions)
    requires i <= k <= |script| && k <= |coins| && k <= |randomActions|
    ensures EpisodeCalls(m, start, script, eps, gamma, coins, randomActions, k)[..i]
         == EpisodeCalls(m, start, script, eps, gamma, coins, randomActions, i)
  {
    var calls' := EpisodeCalls(m, start, script, eps, gamma, coins, randomActions, k);
    if i == k {
      assert calls'[..i] == calls';
    } else {
      EpisodeCallsPrefix(m, start, script, eps, gamma, coins, randomActions, i, k - 1);
      var calls := EpisodeCalls(m, start, script, eps, gamma, coins, randomActions, k - 1);
      assert calls'[..k - 1] == calls;
      TakeOfTake(calls', i, k - 1);
    }
  }

  /**
   Every call of the first `k` iterations acts on the observation before its
   step, picks its action with the policy of the model the calls before it
   produced, and targets the step's reward plus that model's discounted best
   score for the next observation.
   */
  lemma EpisodeCallsStep(m: Model, start: Observation, script: seq<Step<Observation>>, eps: real, gamma: real,
                         coins: seq<real>, randomActions: seq<nat>, k: nat)
    requires Valid(m) && ActionsInRange(m, randomActions)
    requires k <= |script| && k <= |coins| && k <= |randomActions|
    ensures var calls := EpisodeCalls(m, start, script, eps, gamma, coins, randomActions, k);
      && (forall i :: 0 <= i < k ==> ValidCalls(m, calls[..i]))
      && (forall i :: 0 <= i < k ==> calls[i].observation == ObservationBefore(start, script, i))
      && (forall i :: 0 <= i < k ==>
            calls[i].action == SampleAction(ApplyUpdates(m, calls[..i]), calls[i].observation, eps, coins[i], randomActions[i]))
      && (forall i :: 0 <= i < k ==>
            calls[i].target == TdTarget(script[i].reward, gamma, Predict(ApplyUpdates(m, calls[..i]), script[i].observation)))
  {
    var calls := EpisodeCalls(m, start, script, eps, gamma, coins, randomActions, k);
    forall i | 0 <= i < k
      ensures ValidCalls(m, calls[..i])
      ensures calls[i].observation == ObservationBefore(start, script, i)
      ensures calls[i].action == SampleAction(ApplyUpdates(m, calls[..i]), calls[i].observation, eps, coins[i], randomActions[i])
      ensures calls[i].target == TdTarget(script[i].reward, gamma, Predict(ApplyUpdates(m, calls[..i]), script[i].observation))
    {
      EpisodeCallsPrefix(m, start, script, eps, gamma, coins, randomActions, i, k);
      EpisodeCallsPrefix(m, start, script, eps, gamma, coins, randomActions, i + 1, k);
      var calls' := EpisodeCalls(m, start, script, eps, gamma, coins, randomActions, i + 1);
      assert calls'[..i] == calls[..i];
      assert calls[i] == calls'[i];
    }
  }

  /**
   One pass through the body of the `play_one` loop at iteration `k`: act,
   step, update the model and add the reward, keeping the episode's state in
   step with the first `k + 1` iterations.
   */
  method PlayIteration(m: Model, start: Observation, script: seq<Step<Observation>>, eps: real, gamma: real,
                       coins: seq<real>, randomActions: seq<nat>, k: nat,
                       model: Model, observation: Observation, totalReward: real, calls: seq<UpdateCall<Observation>>)
    returns (model': Model, observation': Observation, totalReward': real, calls': seq<UpdateCall<Observation>>)
    requires Valid(m) && ActionsInRange(m, randomActions)
    requires k < |script| && k < |coins| && k < |randomActions|
    requires observation == ObservationBefore(start, script, k) && totalReward == SumRewards(script[..k])
    requires calls == EpisodeCalls(m, start, script, eps, gamma, coins, randomActions, k) && model == ApplyUpdates(m, calls)
    ensures observation' == ObservationBefore(start, script, k + 1) && observation' == script[k].observation
    ensures totalReward' == SumRewards(script[..k + 1])
    ensures calls' == EpisodeCalls(m, start, script, eps, gamma, coins, randomActions, k + 1)
    ensures model' == ApplyUpdates(m, calls')
  {
    var step := script[k];
    var call := NextCall(model, observation, step, eps, gamma, coins[k], randomActions[k]);
    observation' := step.observation;
    model' := Update(model, call.observation, call.action, call.target);
    totalReward' := totalReward + step.reward;
    calls' := calls + [call];
    assert calls'[..k] == calls;
    assert script[..k + 1][..k] == script[..k];
  }

  /**
   `play_one(model, eps, gamma)` against a scripted environment: `start` is what
   `reset()` returns and `script[i]` what the `i`-th `step` returns; the draws of
   the policy are `coins[i]` and `randomActions[i]`. The loop runs until the
   first terminal step or `MaxIterations` steps. Returns the sum of the rewards,
   the final model and the update calls in the order they were made.
   */
  method PlayOne(m: Model, start: Observation, script: seq<Step<Observation>>, eps: real, gamma: real,
                 coins: seq<real>, randomActions: seq<nat>)
    returns (totalReward: real, m': Model, calls: seq<UpdateCall<Observation>>)
    requires Valid(m) && ActionsInRange(m, randomActions)
    requires HasDone(script) || |script| >= MaxIterations
    requires |coins| >= RunLength(script, MaxIterations) && |randomActions| >= RunLength(script, MaxIterations)
    ensures |calls| == RunLength(script, MaxIterations)
    ensures totalReward == SumRewards(script[..|calls|])
    ensures calls == EpisodeCalls(m, start, script, eps, gamma, coins, randomActions, |calls|)
    ensures ValidCalls(m, calls) && m' == ApplyUpdates(m, calls)
  {
    var observation := start;
    var done := false;
    totalReward := 0.0;
    m' := m;
    calls := [];
    var iterations: nat := 0;
    ghost var n := RunLength(script, MaxIterations);
    while !done && iterations < MaxIterations
      invariant if done || iterations == MaxIterations then iterations == n else iterations < n
      invariant observation == ObservationBefore(start, script, iterations)
      invariant totalReward == SumRewards(script[..iterations])
      invariant calls == EpisodeCalls(m, start, script, eps, gamma, coins, randomActions, iterations)
      invariant m' == ApplyUpdates(m, calls)
      decreases n - iterations
    {
      RunLengthStop(script, MaxIterations, iterations);
      done := script[iterations].done;
      m', observation, totalReward, calls :=
        PlayIteration(m, start, script, eps, gamma, coins, randomActions, iterations, m', observation, totalReward, calls);
      iterations := iterations + 1;
    }
  }
}

=== FILE: td_target.dfy ===
/** The one-step temporal-difference target both agents update toward. */
module TdTargets {
  import opened Greedy

  /**
   The one-step TD target `reward + gamma * np.max(next)`: the bootstrap term is
   included whatever the step, terminal or not.
   */
  function TdTarget(reward: real, gamma: real, next: seq<real>): real
    requires |next| > 0
  {
    reward + gamma * Max(next)
  }

  /** With a non-negative discount no next action's one-step return exceeds the target. */
  lemma TdTargetBoundsReturns(reward: real, gamma: real, next: seq<real>)
    requires |next| > 0 && gamma >= 0.0
    ensures forall i :: 0 <= i < |next| ==> reward + gamma * next[i] <= TdTarget(reward, gamma, next)
  {
    MaxIsLargest(next);
    ScaledBound(reward, gamma, next, Max(next));
  }

  /** The target is the one-step return of the greedy action. */
  lemma TdTargetOfGreedy(reward: real, gamma: real, next: seq<real>)
    requires |next| > 0
    ensures TdTarget(reward, gamma, next) == reward + gamma * next[Argmax(next)]
  {
    ArgmaxAttainsMax(next);
  }
}

=== FILE: wrappers.dfy ===
/** Failure-carrying results for operations of the model that can raise in the source. */
module Wrappers {

  /** `None` stands for a Python exception raised by the operation. */
  datatype Option<+T> = None | Some(value: T)
}
